=== FILE: README.md ===
# mikro-orm `Utils` — a Dafny model

This project models the core of `lib/Utils.ts` in mikro-orm. That file holds the helpers behind the identity map's change tracking and the MongoDB query preparation:

- **`Utils.diff(a, b)`** builds a change-set: for every own key of `b` that is not a bookkeeping key, the new value, the nested change-set, or nothing.
- **`Utils.prepareEntity(e)`** turns an entity into a comparable snapshot. Collections and unsaved references are dropped, saved references become their `id`, and undeclared properties are dropped.
- **`Utils.diffEntities(a, b)`** diffs two such snapshots.
- **`Utils.unique`** removes duplicates in first-occurrence order.
- **`Utils.renameKey`**, **`Utils.convertObjectIds`** and **`Utils.prepareQuery`** rename `id` to `_id` and wrap 24-hex-digit strings into ObjectIDs.
- **`Utils.getParamNames`** extracts parameter names from a function's source text, on a string argument.

Modules:

- `Wrappers` has `Option` and `Result`. A `TypeError` result stands for a thrown JavaScript `TypeError`.
- `Values` defines the JavaScript values the utilities handle. It also has the type probes `isObject` (`typeof === 'object'`, so `null` counts), `isArray` and `isString` as `IsObject`, `IsArray` and `IsString`. It models `Object.keys(v)` (`OwnKeys`) and property reads `v[k]` (`Get`), including array index keys and `length`, and the `TypeError` thrown on `undefined`/`null`.
- `Differ` has `diff` and the change-set as a patch (`Apply`). `DiffKey` is the body of `diff`'s `forEach` callback (lib/Utils.ts:36-56) for one key. It has no contract of its own; the `Differ` lemmas state what it does for each kind of key.
- `Sanitizer` has `prepareEntity` and `diffEntities`.
- `Lists` has `unique`.
- `Query` has `renameKey`, `convertObjectIds` and `prepareQuery`. The source mutates its argument and returns nothing; the model returns the argument as it stands afterwards. `ConvertEntry` is the body of `convertObjectIds`'s `forEach` callback (lib/Utils.ts:113-125) for one value. It has no contract of its own; `Query.ConvertObjectIdsField` states what it leaves in each field.
- `ParamNames` has `getParamNames` for a string argument.

`Utils.equals` (fast-deep-equal) is Dafny's structural equality on `Value`.

**The clear-a-field branch.** The branch at lib/Utils.ts:44-46 is meant to report the old value when a field is cleared. It tests `b === undefined`, not `b[k] === undefined`. `b` is the object whose keys are being walked, so that test is always false. A field set to `undefined` is therefore reported as `undefined`, through the first branch (lib/Utils.ts:40-42). The model follows the code here, not that intent: see `Differ.DiffReportsClearAsUndefined` and `Differ.ExampleExplicitClear`.

## Model

| member | source | states |
|---|---|---|
| Values.OwnKeys | lib/Utils.ts:35 | `Object.keys` throws exactly on `undefined`/`null`. A plain object lists its own keys. An array lists exactly its index keys. |
| Values.Get | lib/Utils.ts:40-56 | Reading `v[k]` throws exactly when `v` is `undefined` or `null`. |
| Values.GetArrayElement | lib/Utils.ts:35-41 | Index `i` of an array is one of its own keys, and reading that key yields the `i`-th element. |
| Values.IndexKeyRoundTrip | lib/Utils.ts:35 | The key under which an array exposes index `i` parses back to `i`. |
| Values.ParseIndexRoundTrip | lib/Utils.ts:35 | A canonical index key is the printed form of the index it denotes. |
| Values.IndexKeysExactly | lib/Utils.ts:35 | A key is an own key of a length-`n` array iff it is a canonical index key below `n`. |
| Values.GetNullFree | lib/Utils.ts:40-56 | Reading any key of a defined value without `null` succeeds, and the value read has no `null` either. |
| Values.OwnKeyChild | lib/Utils.ts:56 | The value under an own key is readable. An object-typed value there is an immediate child of a plain object or array, so `diff` recurses only into children. |
| Differ.Diff | lib/Utils.ts:32-60 | `diff` throws when `b` is `undefined`/`null`. Every key of the change-set is an own key of `b` and not one of `_id`, `_initialized`, `createdAt`, `updatedAt`. |
| Differ.DiffReportsAddition | lib/Utils.ts:40-42 | A key undefined in `a` is reported with `b`'s value verbatim, even an object and even `undefined`. |
| Differ.DiffReportsClearAsUndefined | lib/Utils.ts:40-46 | A defined old value over an undefined new one is reported as `undefined`, never as the old value. |
| Differ.DiffOmitsExactlyUnchanged | lib/Utils.ts:36-50 | A key of `b` is absent from the change-set iff it is a bookkeeping key, or its old value is defined and deep-equal to the new one. |
| Differ.DiffReplacesArrays | lib/Utils.ts:52-54 | Two unequal arrays: the new array is reported whole. |
| Differ.DiffReportsScalarChange | lib/Utils.ts:56 | A changed non-object new value over a defined old value is reported verbatim. |
| Differ.DiffRecursesIntoObjects | lib/Utils.ts:56 | Any other changed object-typed new value is reported as the nested change-set. A throw inside it makes the whole diff throw. |
| Differ.DiffThrowsOnNullOverValue | lib/Utils.ts:56 | A `null` new value over a different defined old value throws, because `null` is an object and `Object.keys(null)` throws. |
| Differ.DiffFromNullish | lib/Utils.ts:35-40 | For a defined `b`, diffing from an undefined/null old value throws iff `b` has a non-bookkeeping key; otherwise the change-set is empty. |
| Differ.DiffThrowsOnNullOld | lib/Utils.ts:56 | A `null` old value under an object-typed new value with a reportable key throws. |
| Differ.DiffSucceedsWithoutNull | lib/Utils.ts:32-60 | On finite, acyclic values, `diff` throws only by reading through `undefined` or `null`. On defined inputs with no `null` at any depth it succeeds, even where a string or number old value meets an object new value. |
| Differ.DiffSelf | lib/Utils.ts:32-60 | Diffing a defined value against itself reports exactly its explicitly undefined non-bookkeeping keys, each as `undefined`. |
| Differ.DiffFlat | lib/Utils.ts:32-60 | Suppose `a` and `b` are defined and `b` has no object-typed reportable field. Then the diff succeeds, and a key is reported iff it is new, undefined on the old side, or changed; it is mapped to its new value. |
| Differ.DiffApplyRoundTrip | lib/Utils.ts:32-60 | For objects whose differing nested fields are both arrays or both plain objects, the diff succeeds. Deep-merging it into `a` brings every non-bookkeeping field of `b` up to date at every depth. |
| Differ.ExampleNestedChange | lib/Utils.ts:32-60 | A changed name, a replaced array and a nested object with one new field give exactly those three entries, the nested one holding only the new field. |
| Differ.ExampleExplicitClear | lib/Utils.ts:40-46 | `{email: 'a@b.com'}` against `{email: undefined}` gives `{email: undefined}`. |
| Differ.ExampleIgnoredKeys | lib/Utils.ts:36-38 | Changes to `_id` and `updatedAt` alone give an empty change-set. |
| Sanitizer.DropRelations | lib/Utils.ts:75-83 | Exactly the declared collections and unsaved references are removed. A remaining declared saved reference becomes its `id`, and a remaining declared plain value is kept. Undeclared fields are unchanged. |
| Sanitizer.DropUndeclared | lib/Utils.ts:86-90 | Exactly the entity's undeclared properties are removed; the rest is unchanged. |
| Sanitizer.PrepareEntity | lib/Utils.ts:69-93 | The snapshot's keys are exactly the entity's declared fields that are plain values or saved references. Each maps to its value or to the reference's `id`. |
| Sanitizer.DiffEntities | lib/Utils.ts:65-67 | Every reported key is a declared, non-bookkeeping field of `b` that is neither a collection nor an unsaved reference. |
| Sanitizer.DiffEntitiesSelf | lib/Utils.ts:65-93 | An entity diffed against itself reports only its declared comparable fields whose snapshot value is `undefined`. |
| Sanitizer.DiffEntitiesReportsReferenceSwitch | lib/Utils.ts:65-83 | Re-pointing a declared reference to a saved entity with a different scalar `id` reports the new `id`. |
| Sanitizer.ExampleUnsavedOwner | lib/Utils.ts:75-78 | An unsaved owner is absent from the snapshot and from every diff against it. |
| Lists.Unique | lib/Utils.ts:28-30 | The result has no duplicates and holds exactly the input's elements, in the order of their first occurrence. |
| Lists.UniqueOfDistinct | lib/Utils.ts:28-30 | A list without duplicates is returned unchanged. |
| Lists.UniqueIdempotent | lib/Utils.ts:28-30 | Applying `unique` twice equals applying it once. |
| Query.RenameKey | lib/Utils.ts:104-109 | When `from` is truthy and `to` is not, the value moves from `from` to `to` and nothing else changes. Otherwise the payload is untouched. |
| Query.RenameKeyInverse | lib/Utils.ts:104-109 | If `to` was absent, renaming back restores the original payload. |
| Query.ConvertObjectIds | lib/Utils.ts:111-127 | `undefined`/`null` throws. An object or array keeps its keys or length. Strings, numbers, booleans and ObjectIDs are returned as they are. |
| Query.ConvertObjectIdsField | lib/Utils.ts:113-126 | A 24-hex-digit string field becomes an ObjectID of it. An array field becomes the array of ObjectIDs of its elements. A nested plain object is replaced by its own conversion. ObjectIDs and other non-object fields are kept. A successful conversion had no `null` field. |
| Query.ConvertObjectIdsElement | lib/Utils.ts:113-126 | For an array payload, a 24-hex-digit string element becomes an ObjectID of it, and an array element becomes the array of ObjectIDs of its elements. A plain-object element is replaced by its own conversion. ObjectIDs and other non-object elements, such as a non-hex string, are kept. A successful conversion had no `null` element. |
| Query.ConvertObjectIdsLeavesNoHex | lib/Utils.ts:111-127 | After a successful conversion, no 24-hex-digit string is reachable through plain objects: the recursion wraps every one of them. |
| Query.ConvertObjectIdsFails | lib/Utils.ts:111-127 | Conversion throws iff the payload is `undefined`/`null` or a `null` is reachable from it through plain objects. |
| Query.ConvertObjectIdsOnlyWraps | lib/Utils.ts:111-127 | On a payload without ObjectIDs, erasing the introduced ObjectIDs gives back the payload. |
| Query.PrepareQuery | lib/Utils.ts:99-102 | Preparing an `undefined`/`null` query throws. |
| Query.PrepareQueryById | lib/Utils.ts:99-102 | A query by a 24-hex-digit `id` without a truthy `_id` becomes a query by `_id` holding that ObjectID, with no `id` left. |
| ParamNames.StripComments | lib/Utils.ts:130-132 | Removing comments never lengthens the text, keeps a leading non-slash character, and leaves no `//` anywhere. |
| ParamNames.StripCommentsNoSlash | lib/Utils.ts:130-132 | Text without a slash is unchanged. |
| ParamNames.StripCommentsSlashFreePrefix | lib/Utils.ts:130-132 | Text before the first slash passes through unchanged, and removal continues on the rest. |
| ParamNames.StripCommentsBlock | lib/Utils.ts:130-132 | A closed block comment between slash-free texts is removed, and exactly the text on both sides of it is kept. Its body may hold any text without a `*/` pair, stars and slashes included. |
| ParamNames.StripCommentsLine | lib/Utils.ts:130-132 | A line comment between slash-free texts is removed up to its line terminator, whichever of `\n`, `\r`, U+2028 or U+2029 it is. The terminator and everything after it are kept. |
| ParamNames.IndexOf | lib/Utils.ts:133 | `indexOf` is -1 iff the character is absent; otherwise it is the position of its first occurrence. |
| ParamNames.JsSliceCases | lib/Utils.ts:133 | `slice(start, end)` with in-range bounds takes the text between them, and crossed bounds give the empty string. A negative bound counts from the end, and an end past the text stops at its end. A start at or past the end gives the empty string. |
| ParamNames.Tokens | lib/Utils.ts:131-133 | Every match of `[^\s,]+` is a non-empty run free of whitespace and commas. |
| ParamNames.TokensSplit | lib/Utils.ts:131-133 | The tokens of `a`, a whitespace or comma, then `b`, are the tokens of `a` followed by those of `b`. |
| ParamNames.TokensOfWord | lib/Utils.ts:131-133 | A non-empty run without whitespace or commas is a single token. |
| ParamNames.BeforeEquals | lib/Utils.ts:149 | `split('=')[0]` is the whole token when it has no `=`. Otherwise it is the prefix that ends just before the token's first `=`. |
| ParamNames.StripDefaults | lib/Utils.ts:145-152 | Stripping defaults never lengthens the token list. |
| ParamNames.StripDefaultsIsStrip | lib/Utils.ts:144-152 | The index-and-splice loop equals a left-to-right stream rewrite. A lone `=` drops itself and the next token and keeps the one after unexamined; a token containing `=` is cut and the next token dropped. |
| ParamNames.StripWithoutDefaults | lib/Utils.ts:144-152 | Tokens without `=` come out unchanged. |
| ParamNames.StripDropsTokenAfterDefault | lib/Utils.ts:148-150 | `["a=1", "b"]` becomes `["a"]`: the parameter after a default is lost. |
| ParamNames.StripSkipsTokenAfterSplice | lib/Utils.ts:145-147 | `["a", "=", "1", "b=2"]` becomes `["a", "b=2"]`: the token moved into place by the splice keeps its default. |
| ParamNames.GetParamNames | lib/Utils.ts:129-155 | Every returned name is free of whitespace and commas. |
| ParamNames.GetParamNamesOfSignature | lib/Utils.ts:129-155 | For comment-free text (text the comment stripper leaves unchanged, which may still hold a `/`), only what lies between the first `(` and the first `)` counts. No tokens, or a first token `class`, gives `[]`; otherwise the names are the stripped tokens. |
| ParamNames.GetParamNamesWithoutParentheses | lib/Utils.ts:133-142 | For comment-free text without parentheses, the last character is dropped and the rest is tokenised, so `class A {}` yields `[]`. |
| ParamNames.GetParamNamesDefaultExample | lib/Utils.ts:129-155 | `function f(a=1, b) {}` yields `["a"]`. |

## Left out

- Prototype-inherited properties are not modelled; `Get` sees own properties, array/string indices and `length` only. A key such as `constructor` or `toString` reads as `undefined` here but is a function in JavaScript.
- The iteration order of `Object.keys` is not modelled. A diff that throws is a `TypeError` whichever key threw first. A change-set is a map, so its key order is not modelled either.
- `Value` is an inductive datatype, so it holds only finite trees without cycles or sharing. In JavaScript, `diff` and fast-deep-equal recurse without end on a cyclic object graph and fail with a `RangeError`; neither the cyclic graphs nor that error are modelled. Avoiding cycles is why the source diffs `prepareEntity` snapshots (lib/Utils.ts:62-64).
- `Utils.equals` uses fast-deep-equal. It is modelled as structural equality on finite values. Numbers are integers, so `NaN`, `-0` and floating point are left out.
- `Utils.copy` (a deep `clone`) is the identity: values are immutable, so the copy cannot be told apart from the entity.
- The metadata registry (`getMetadataStorage()` and the lookup by constructor name) is global state. The declared property names are a parameter. A missing registry entry is not modelled.
- The `BaseEntity` and `Collection` classes are not part of this model. A field is a plain value, a reference holding its `_id`, or a collection. The `id` getter of a saved reference is a parameter. Entities nested inside plain values are not recognised.
- The bson `ObjectID` constructor is a wrapper `Oid(v)`. It does not check its argument, which is why an array of arbitrary elements converts without error here. An ObjectID has no own keys.
- Query.RenameKey: modelled on plain-object payloads only; `prepareQuery` on any other value never renames, since reading `id` from it gives `undefined`.
- Strings are sequences of Unicode scalar values, not UTF-16 code units. This affects string lengths and index keys only for characters outside the Basic Multilingual Plane.
- `getParamNames` on a `Function` goes through `Function.prototype.toString`, which is runtime introspection. Only the string argument is modelled.
- ParamNames.GetParamNames: its own contract states only that names are free of whitespace and commas. For comment-free text, the result is stated by `ParamNames.GetParamNamesOfSignature` and `ParamNames.StripDefaultsIsStrip`. Text with comments is reduced to comment-free text by `ParamNames.StripComments`, whose effect is stated by the lemmas below.
- ParamNames.StripComments: its own contract states bounds only. What survives is stated by `ParamNames.StripCommentsBlock` and `ParamNames.StripCommentsLine`, for one comment between slash-free texts: a block comment with any body free of `*/`, or a line comment ended by any line terminator. Several comments, and slashes that do not start a comment, are covered by the definition but by no lemma.
- ParamNames.Tokens: its own contract states that each token is a non-empty separator-free run. That each run is maximal and that none is skipped is stated by `ParamNames.TokensSplit` and `ParamNames.TokensOfWord`.
- ParamNames.StripDefaults: its own contract states only that the list does not grow. Its result is stated by `ParamNames.StripDefaultsIsStrip`.
- Query.PrepareQuery: its own contract states only the throw on `undefined`/`null`. What it produces is stated by `Query.PrepareQueryById` and the `Query.ConvertObjectIds` lemmas.

=== FILE: differ.dfy ===
/** The structural differ `Utils.diff` (lib/Utils.ts:32-60): walks the own
    keys of the new value `b` and reports, per key, nothing (skipped), the new
    value verbatim, or a nested change-set. */
module Differ {
  import opened Wrappers
  import opened Values

  /** Bookkeeping keys the differ never reports (lib/Utils.ts:10). */
  const IgnoredKeys: set<string> := {"_id", "_initialized", "createdAt", "updatedAt"}

  /** The body of the `forEach` callback for key `k` of `b`: `None` when the
      key is skipped, `Some(v)` when `ret[k] = v` is performed. */
  function DiffKey(a: Value, b: Value, k: string): Result<Option<Value>>
    requires OwnKeys(b).Ok? && k in OwnKeys(b).value
    decreases b, 0
  {
    if k in IgnoredKeys then Ok(None)
    else
      var ak :- Get(a, k);
      OwnKeyChild(b, k);
      var bk := Get(b, k).value;
      if ak == Undef && b != Undef then Ok(Some(bk))
      // `b` is the object whose keys are being walked, so this guard never holds.
      else if ak != Undef && b == Undef then Ok(Some(ak))
      else if ak == bk then Ok(None)
      else if IsArray(ak) && IsArray(bk) then Ok(Some(bk))
      else if IsObject(bk) then
        var nested :- Diff(ak, bk);
        Ok(Some(Obj(nested)))
      else Ok(Some(bk))
  }

  /** `Utils.diff(a, b)`: the change-set, or TypeError if any step throws. */
  function Diff(a: Value, b: Value): (r: Result<map<string, Value>>)
    ensures Nullish(b) ==> r.TypeError?
    ensures r.Ok? ==> r.value.Keys <= OwnKeys(b).value - IgnoredKeys
    decreases b, 1
  {
    var keys :- OwnKeys(b);
    if exists k | k in keys :: DiffKey(a, b, k).TypeError? then TypeError
    else Ok(map k | k in keys && DiffKey(a, b, k).value.Some? :: DiffKey(a, b, k).value.value)
  }

  /** How `Diff` is assembled from its per-key steps. */
  lemma DiffAt(a: Value, b: Value, k: string)
    requires OwnKeys(b).Ok? && k in OwnKeys(b).value
    ensures DiffKey(a, b, k).TypeError? ==> Diff(a, b).TypeError?
    ensures Diff(a, b).Ok? ==> DiffKey(a, b, k).Ok?
    ensures Diff(a, b).Ok? ==>
              (k in Diff(a, b).value <==> DiffKey(a, b, k).value.Some?)
    ensures Diff(a, b).Ok? && k in Diff(a, b).value ==>
              Diff(a, b).value[k] == DiffKey(a, b, k).value.value
  {
  }

  /** `diff` throws only by reading through `undefined` or `null`: on
      defined inputs with no `null` anywhere it always succeeds, whatever the
      shapes of the two sides (a string meeting an object, say). */
  lemma {:induction false} DiffSucceedsWithoutNull(a: Value, b: Value)
    requires !Nullish(a) && !Nullish(b) && NullFree(a) && NullFree(b)
    ensures Diff(a, b).Ok?
    decreases b
  {
    var keys := OwnKeys(b).value;
    forall k | k in keys ensures DiffKey(a, b, k).Ok? {
      if k !in IgnoredKeys {
        GetNullFree(a, k);
        GetNullFree(b, k);
        OwnKeyChild(b, k);
        var ak, bk := Get(a, k).value, Get(b, k).value;
        if ak != Undef && ak != bk && !(IsArray(ak) && IsArray(bk)) && IsObject(bk) {
          DiffSucceedsWithoutNull(ak, bk);
        }
      }
    }
  }

  // ---------------------------------------------------------------------------
  // What the change-set says, key by key

  /** A key missing from `a` (or explicitly undefined there) is reported with
      `b`'s value verbatim: no recursion even into an object, and the key is
      reported even when `b`'s value is itself undefined. */
  lemma DiffReportsAddition(a: Value, b: Value, k: string)
    requires OwnKeys(b).Ok? && k in OwnKeys(b).value && k !in IgnoredKeys
    requires Get(a, k) == Ok(Undef)
    ensures Diff(a, b).Ok? ==> k in Diff(a, b).value && Diff(a, b).value[k] == Get(b, k).value
  {
    DiffAt(a, b, k);
  }

  /** A defined old value over an undefined new value is reported as
      `undefined`, not as the old value: the old-value branch is never taken. */
  lemma DiffReportsClearAsUndefined(a: Value, b: Value, k: string)
    requires OwnKeys(b).Ok? && k in OwnKeys(b).value && k !in IgnoredKeys
    requires Get(a, k).Ok? && Get(a, k).value != Undef
    requires Get(b, k) == Ok(Undef)
    ensures Diff(a, b).Ok? ==> k in Diff(a, b).value && Diff(a, b).value[k] == Undef
  {
    DiffAt(a, b, k);
  }

  /** A key of `b` is left out of the change-set exactly when it is a
      bookkeeping key or its old value is defined and deep-equal to the new one. */
  lemma DiffOmitsExactlyUnchanged(a: Value, b: Value, k: string)
    requires Diff(a, b).Ok?
    requires OwnKeys(b).Ok? && k in OwnKeys(b).value
    ensures k !in Diff(a, b).value <==>
              k in IgnoredKeys
              || (Get(a, k).Ok? && Get(a, k).value != Undef && Get(a, k).value == Get(b, k).value)
  {
    DiffAt(a, b, k);
  }

  /** Two unequal arrays: the new array replaces the old one wholesale. */
  lemma DiffReplacesArrays(a: Value, b: Value, k: string)
    requires Diff(a, b).Ok?
    requires OwnKeys(b).Ok? && k in OwnKeys(b).value && k !in IgnoredKeys
    requires Get(a, k).Ok? && Get(a, k).value.Arr? && Get(b, k).value.Arr?
    requires Get(a, k).value != Get(b, k).value
    ensures k in Diff(a, b).value && Diff(a, b).value[k] == Get(b, k).value
  {
    DiffAt(a, b, k);
  }

  /** A changed non-object new value over a defined old value is reported verbatim. */
  lemma DiffReportsScalarChange(a: Value, b: Value, k: string)
    requires Diff(a, b).Ok?
    requires OwnKeys(b).Ok? && k in OwnKeys(b).value && k !in IgnoredKeys
    requires Get(a, k).Ok? && Get(a, k).value != Undef
    requires !IsObject(Get(b, k).value) && Get(a, k).value != Get(b, k).value
    ensures k in Diff(a, b).value && Diff(a, b).value[k] == Get(b, k).value
  {
    DiffAt(a, b, k);
  }

  /** Any other changed object-typed new value over a defined old value is
      reported as the nested change-set, and a throw inside the nested diff
      makes the whole diff throw. */
  lemma DiffRecursesIntoObjects(a: Value, b: Value, k: string)
    requires OwnKeys(b).Ok? && k in OwnKeys(b).value && k !in IgnoredKeys
    requires Get(a, k).Ok? && Get(a, k).value != Undef
    requires Get(a, k).value != Get(b, k).value
    requires IsObject(Get(b, k).value) && !(IsArray(Get(a, k).value) && IsArray(Get(b, k).value))
    ensures Diff(Get(a, k).value, Get(b, k).value).TypeError? ==> Diff(a, b).TypeError?
    ensures Diff(a, b).Ok? ==>
              && Diff(Get(a, k).value, Get(b, k).value).Ok?
              && k in Diff(a, b).value
              && Diff(a, b).value[k] == Obj(Diff(Get(a, k).value, Get(b, k).value).value)
  {
    DiffAt(a, b, k);
  }

  /** A `null` new value over a different defined old value throws: `null`
      is an object, so the differ recurses and calls `Object.keys(null)`. */
  lemma DiffThrowsOnNullOverValue(a: Value, b: Value, k: string)
    requires OwnKeys(b).Ok? && k in OwnKeys(b).value && k !in IgnoredKeys
    requires Get(b, k) == Ok(Null)
    requires Get(a, k).Ok? && !Nullish(Get(a, k).value)
    ensures Diff(a, b).TypeError?
  {
    DiffAt(a, b, k);
  }

  /** Reading from an undefined or null old value throws as soon as `b` has
      a key that is not a bookkeeping key; otherwise the change-set is empty. */
  lemma DiffFromNullish(a: Value, b: Value)
    requires Nullish(a) && !Nullish(b)
    ensures Diff(a, b).TypeError? <==> OwnKeys(b).value - IgnoredKeys != {}
    ensures Diff(a, b).Ok? ==> Diff(a, b).value == map[]
  {
    if k :| k in OwnKeys(b).value - IgnoredKeys {
      DiffAt(a, b, k);
    }
  }

  /** A `null` old value under an object-typed new value with a reportable
      key throws (the nested diff reads a property of `null`). */
  lemma DiffThrowsOnNullOld(a: Value, b: Value, k: string)
    requires OwnKeys(b).Ok? && k in OwnKeys(b).value && k !in IgnoredKeys
    requires Get(a, k) == Ok(Null) && IsObject(Get(b, k).value)
    requires OwnKeys(Get(b, k).value).Ok? && OwnKeys(Get(b, k).value).value - IgnoredKeys != {}
    ensures Diff(a, b).TypeError?
  {
    DiffFromNullish(Null, Get(b, k).value);
    DiffRecursesIntoObjects(a, b, k);
  }

  // ---------------------------------------------------------------------------
  // Whole change-sets

  /** Diffing a value against itself reports exactly its explicitly undefined
      non-bookkeeping keys, each as `undefined`; everything else is equal. */
  lemma DiffSelf(x: Value)
    requires !Nullish(x)
    ensures Diff(x, x)
            == Ok(map k | k in OwnKeys(x).value && k !in IgnoredKeys && Get(x, k) == Ok(Undef) :: Undef)
  {
    var keys := OwnKeys(x).value;
    forall k | k in keys
      ensures DiffKey(x, x, k).Ok?
      ensures DiffKey(x, x, k).value.Some? <==> k !in IgnoredKeys && Get(x, k) == Ok(Undef)
      ensures DiffKey(x, x, k).value.Some? ==> DiffKey(x, x, k).value.value == Undef
    {
    }
    assert Diff(x, x).Ok?;
    var d := Diff(x, x).value;
    var expected := map k | k in keys && k !in IgnoredKeys && Get(x, k) == Ok(Undef) :: Undef;
    forall k | k in keys ensures k in d <==> k in expected {
      DiffAt(x, x, k);
    }
    forall k | k in d ensures d[k] == expected[k] {
      DiffAt(x, x, k);
    }
    assert d == expected;
  }

  /** For a new value none of whose reportable fields is object-typed, the
      diff succeeds and the change-set is every such field that is new,
      undefined on the old side, or changed, mapped to its new value. */
  lemma DiffFlat(a: Value, b: Value)
    requires !Nullish(a) && !Nullish(b)
    requires forall k | k in OwnKeys(b).value && k !in IgnoredKeys :: !IsObject(Get(b, k).value)
    ensures Diff(a, b).Ok?
    ensures forall k | k in OwnKeys(b).value ::
              k in Diff(a, b).value
              <==> k !in IgnoredKeys && (Get(a, k).value == Undef || Get(a, k).value != Get(b, k).value)
    ensures forall k | k in Diff(a, b).value :: Diff(a, b).value[k] == Get(b, k).value
  {
    var keys := OwnKeys(b).value;
    forall k | k in keys
      ensures DiffKey(a, b, k) == Ok(FlatStep(a, b, k))
    {
      DiffFlatKey(a, b, k);
    }
    assert Diff(a, b).Ok?;
    forall k | k in keys ensures k in Diff(a, b).value <==> FlatStep(a, b, k).Some? {
      DiffAt(a, b, k);
    }
    forall k | k in Diff(a, b).value ensures Diff(a, b).value[k] == Get(b, k).value {
      DiffAt(a, b, k);
    }
  }

  /** The step `DiffFlat` predicts for key `k` of a flat new value. */
  function FlatStep(a: Value, b: Value, k: string): Option<Value>
    requires !Nullish(a) && !Nullish(b)
  {
    if k !in IgnoredKeys && (Get(a, k).value == Undef || Get(a, k).value != Get(b, k).value)
    then Some(Get(b, k).value)
    else None
  }

  lemma DiffFlatKey(a: Value, b: Value, k: string)
    requires !Nullish(a) && !Nullish(b) && k in OwnKeys(b).value
    requires k !in IgnoredKeys ==> !IsObject(Get(b, k).value)
    ensures DiffKey(a, b, k) == Ok(FlatStep(a, b, k))
  {
  }

  // ---------------------------------------------------------------------------
  // The change-set as a patch

  /** Deep-merges a change-set into a plain object: a nested change-set is
      merged into a nested plain object, anything else overwrites. */
  function Apply(a: Value, d: map<string, Value>): (r: Value)
    requires a.Obj?
    ensures r.Obj? && r.props.Keys == a.props.Keys + d.Keys
    decreases a
  {
    Obj(map k | k in a.props.Keys + d.Keys ::
          if k !in d then a.props[k]
          else if k in a.props && a.props[k].Obj? && d[k].Obj? then Apply(a.props[k], d[k].props)
          else d[k])
  }

  /** `u` carries every non-bookkeeping field of `v`, at every depth where
      both are plain objects (it may carry more). */
  predicate Covers(u: Value, v: Value)
    decreases v
  {
    || u == v
    || (&& u.Obj? && v.Obj?
        && forall k | k in v.props && k !in IgnoredKeys :: k in u.props && Covers(u.props[k], v.props[k]))
  }

  /** Plain objects whose change-set is a faithful patch: wherever a defined
      old field differs from an object-typed new field, both are arrays or
      both are plain objects of this kind. */
  predicate Patchable(a: Value, b: Value)
    requires a.Obj? && b.Obj?
    decreases b
  {
    forall k | k in b.props && k !in IgnoredKeys ::
      || Prop(a.props, k) == Undef
      || Prop(a.props, k) == b.props[k]
      || !IsObject(b.props[k])
      || (Prop(a.props, k).Arr? && b.props[k].Arr?)
      || (Prop(a.props, k).Obj? && b.props[k].Obj? && Patchable(Prop(a.props, k), b.props[k]))
  }

  /** Round trip: for patchable objects the diff succeeds, and merging the
      change-set into the old object brings every non-bookkeeping field of the
      new object, at every depth, up to date. */
  lemma {:induction false} DiffApplyRoundTrip(a: Value, b: Value)
    requires a.Obj? && b.Obj? && Patchable(a, b)
    ensures Diff(a, b).Ok?
    ensures Covers(Apply(a, Diff(a, b).value), b)
    decreases b
  {
    var keys := b.props.Keys;
    forall k | k in keys
      ensures DiffKey(a, b, k).Ok?
    {
      if k !in IgnoredKeys {
        var ak, bk := Prop(a.props, k), b.props[k];
        if ak != Undef && ak != bk && IsObject(bk) && !(ak.Arr? && bk.Arr?) {
          DiffApplyRoundTrip(ak, bk);
        }
      }
    }
    assert Diff(a, b).Ok?;
    var d := Diff(a, b).value;
    var r := Apply(a, d);
    forall k | k in b.props && k !in IgnoredKeys
      ensures k in r.props && Covers(r.props[k], b.props[k])
    {
      DiffAt(a, b, k);
      var ak, bk := Prop(a.props, k), b.props[k];
      if ak != Undef && ak != bk && IsObject(bk) && !(ak.Arr? && bk.Arr?) {
        DiffApplyRoundTrip(ak, bk);
        assert d[k] == Obj(Diff(ak, bk).value);
        assert r.props[k] == Apply(ak, Diff(ak, bk).value);
      }
    }
  }

  // ---------------------------------------------------------------------------
  // Worked examples

  /** The records of the nested-change example. */
  predicate NestedExample(a: Value, b: Value) {
    && a == Obj(map["name" := Str("A"), "tags" := Arr([Num(1), Num(2)]),
                    "addr" := Obj(map["city" := Str("X")])])
    && b == Obj(map["name" := Str("B"), "tags" := Arr([Num(2), Num(3)]),
                    "addr" := Obj(map["city" := Str("X"), "zip" := Str("9")])])
  }

  /** A changed scalar and array are reported with their new values, and a
      nested object reports only its new field. */
  lemma ExampleNestedChange(a: Value, b: Value)
    requires NestedExample(a, b)
    ensures Diff(a, b) == Ok(map["name" := Str("B"), "tags" := Arr([Num(2), Num(3)]),
                                 "addr" := Obj(map["zip" := Str("9")])])
  {
    ExampleNestedSucceeds(a, b);
    ExampleNestedName(a, b);
    ExampleNestedTags(a, b);
    ExampleNestedAddr(a, b);
    assert OwnKeys(b) == Ok(b.props.Keys);
    ExampleNestedAssemble(Diff(a, b).value, b.props.Keys);
  }

  lemma ExampleNestedName(a: Value, b: Value)
    requires NestedExample(a, b) && Diff(a, b).Ok?
    ensures "name" in Diff(a, b).value && Diff(a, b).value["name"] == Str("B")
  {
    assert Get(a, "name") == Ok(Str("A")) && Get(b, "name") == Ok(Str("B"));
    DiffReportsScalarChange(a, b, "name");
  }

  lemma ExampleNestedTags(a: Value, b: Value)
    requires NestedExample(a, b) && Diff(a, b).Ok?
    ensures "tags" in Diff(a, b).value && Diff(a, b).value["tags"] == Arr([Num(2), Num(3)])
  {
    assert Get(a, "tags") == Ok(Arr([Num(1), Num(2)])) && Get(b, "tags") == Ok(Arr([Num(2), Num(3)]));
    DiffReplacesArrays(a, b, "tags");
  }

  lemma ExampleNestedAddr(a: Value, b: Value)
    requires NestedExample(a, b) && Diff(a, b).Ok?
    ensures "addr" in Diff(a, b).value && Diff(a, b).value["addr"] == Obj(map["zip" := Str("9")])
  {
    var oldAddr, newAddr := a.props["addr"], b.props["addr"];
    ExampleNestedAddress(oldAddr, newAddr);
    assert Get(a, "addr") == Ok(oldAddr) && Get(b, "addr") == Ok(newAddr);
    assert "zip" in newAddr.props && "zip" !in oldAddr.props;
    DiffRecursesIntoObjects(a, b, "addr");
  }

  lemma ExampleNestedAssemble(d: map<string, Value>, keys: set<string>)
    requires keys == {"name", "tags", "addr"} && d.Keys <= keys
    requires "name" in d && d["name"] == Str("B")
    requires "tags" in d && d["tags"] == Arr([Num(2), Num(3)])
    requires "addr" in d && d["addr"] == Obj(map["zip" := Str("9")])
    ensures d == map["name" := Str("B"), "tags" := Arr([Num(2), Num(3)]),
                     "addr" := Obj(map["zip" := Str("9")])]
  {
  }

  lemma ExampleNestedAddress(a: Value, b: Value)
    requires a == Obj(map["city" := Str("X")])
    requires b == Obj(map["city" := Str("X"), "zip" := Str("9")])
    ensures Diff(a, b) == Ok(map["zip" := Str("9")])
  {
    DiffFlat(a, b);
    var d := Diff(a, b).value;
    assert OwnKeys(b).value == {"city", "zip"};
    assert Get(a, "city") == Get(b, "city") == Ok(Str("X"));
    assert Get(a, "zip") == Ok(Undef) && Get(b, "zip") == Ok(Str("9"));
    assert "city" !in d && "zip" in d;
    assert d["zip"] == Str("9");
    assert d.Keys == {"zip"};
    assert d == map["zip" := Str("9")];
  }

  lemma ExampleNestedSucceeds(a: Value, b: Value)
    requires NestedExample(a, b)
    ensures Diff(a, b).Ok?
  {
    var oldAddr, newAddr := a.props["addr"], b.props["addr"];
    assert Patchable(oldAddr, newAddr) by {
      assert newAddr.props.Keys == {"city", "zip"};
    }
    assert Patchable(a, b) by {
      assert b.props.Keys == {"name", "tags", "addr"};
    }
    DiffApplyRoundTrip(a, b);
  }

  /** Clearing a field reports it as `undefined`; the old value is not echoed. */
  lemma ExampleExplicitClear()
    ensures Diff(Obj(map["email" := Str("a@b.com")]), Obj(map["email" := Undef]))
            == Ok(map["email" := Undef])
  {
    var a := Obj(map["email" := Str("a@b.com")]);
    var b := Obj(map["email" := Undef]);
    DiffFlat(a, b);
    var d := Diff(a, b).value;
    assert OwnKeys(b).value == {"email"};
    assert Get(b, "email") == Ok(Undef) && Get(a, "email") == Ok(Str("a@b.com"));
    assert "email" in d && d["email"] == Undef;
    assert d.Keys == {"email"};
    assert d == map["email" := Undef];
  }

  /** Bookkeeping keys are never reported, however much they change. */
  lemma ExampleIgnoredKeys()
    ensures Diff(Obj(map["_id" := Num(1), "updatedAt" := Num(5), "n" := Num(1)]),
                 Obj(map["_id" := Num(2), "updatedAt" := Num(6), "n" := Num(1)]))
            == Ok(map[])
  {
    var a := Obj(map["_id" := Num(1), "updatedAt" := Num(5), "n" := Num(1)]);
    var b := Obj(map["_id" := Num(2), "updatedAt" := Num(6), "n" := Num(1)]);
    DiffFlat(a, b);
    assert "n" !in Diff(a, b).value;
  }
}

=== FILE: lists.dfy ===
/** `Utils.unique` (lib/Utils.ts:28-30): `[...new Set(items)]`. */
module Lists {

  /** No element of `s` occurs twice. */
  predicate NoDuplicates<T(==)>(s: seq<T>) {
    forall i, j | 0 <= i < j < |s| :: s[i] != s[j]
  }

  /** The position of the first occurrence of `x` in `s`. */
  function FirstIndex<T(==)>(s: seq<T>, x: T): (i: nat)
    requires x in s
    ensures i < |s| && s[i] == x && x !in s[..i]
  {
    if s[0] == x then 0 else 1 + FirstIndex(s[1..], x)
  }

  /** A first occurrence inside a prefix is the first occurrence in the whole. */
  lemma FirstIndexInPrefix<T>(s: seq<T>, m: nat, x: T)
    requires m <= |s| && x in s[..m]
    ensures FirstIndex(s, x) == FirstIndex(s[..m], x)
  {
    var i, j := FirstIndex(s, x), FirstIndex(s[..m], x);
    assert s[..m][..j] == s[..j];
    forall t | 0 <= t < j ensures s[t] != x {
      assert s[..j][t] == s[t];
    }
    forall t | 0 <= t < i ensures s[t] != x {
      assert s[..i][t] == s[t];
    }
  }

  /** `[...new Set(items)]`: a JavaScript `Set` keeps insertion order and
      ignores re-insertions, so the elements come out once each, in the order
      of their first occurrence. */
  function Unique<T(==)>(items: seq<T>): (r: seq<T>)
    ensures NoDuplicates(r)
    ensures forall i | 0 <= i < |r| :: r[i] in items
    ensures forall i | 0 <= i < |items| :: items[i] in r
    ensures forall i, j | 0 <= i < j < |r| :: FirstIndex(items, r[i]) < FirstIndex(items, r[j])
    decreases |items|
  {
    if |items| == 0 then []
    else
      var init := items[..|items| - 1];
      var x := items[|items| - 1];
      var r := Unique(init);
      FirstIndicesInPrefix(items, r);
      if x in r then r else r + [x]
  }

  lemma FirstIndicesInPrefix<T>(items: seq<T>, r: seq<T>)
    requires |items| > 0
    requires forall i | 0 <= i < |r| :: r[i] in items[..|items| - 1]
    requires forall i | 0 <= i < |items| - 1 :: items[i] in r
    ensures forall y | y in r :: FirstIndex(items, y) == FirstIndex(items[..|items| - 1], y)
    ensures items[|items| - 1] !in r ==> FirstIndex(items, items[|items| - 1]) == |items| - 1
  {
    var init := items[..|items| - 1];
    forall y | y in r ensures FirstIndex(items, y) == FirstIndex(init, y) {
      FirstIndexInPrefix(items, |items| - 1, y);
    }
    var x := items[|items| - 1];
    if x !in r {
      assert x !in init;
      assert items[..|items| - 1] == init;
    }
  }

  /** A list without duplicates is its own `unique`. */
  lemma {:induction false} UniqueOfDistinct<T>(s: seq<T>)
    requires NoDuplicates(s)
    ensures Unique(s) == s
    decreases |s|
  {
    if |s| > 0 {
      var init, x := s[..|s| - 1], s[|s| - 1];
      assert NoDuplicates(init) by {
        forall i, j | 0 <= i < j < |init| ensures init[i] != init[j] {
          assert init[i] == s[i] && init[j] == s[j];
        }
      }
      UniqueOfDistinct(init);
      assert x !in init by {
        forall i | 0 <= i < |init| ensures init[i] != x {
          assert init[i] == s[i];
        }
      }
      assert Unique(s) == Unique(init) + [x];
      assert s == init + [x];
    }
  }

  /** Applying `unique` twice is the same as applying it once. */
  lemma UniqueIdempotent<T>(s: seq<T>)
    ensures Unique(Unique(s)) == Unique(s)
  {
    UniqueOfDistinct(Unique(s));
  }
}

=== FILE: paramnames.dfy ===
/** `Utils.getParamNames` on a string argument (lib/Utils.ts:129-155):
    strip comments, take the text between the first `(` and the first `)`,
    split it into runs of characters that are neither whitespace nor commas,
    and strip default values with the source's splice loop. */
module ParamNames {
  import opened Wrappers

  /** Line terminators: what `.` does not match and `$` (multiline) stops at. */
  predicate IsLineTerminator(c: char) {
    c == '\n' || c == '\r' || c == '\U{2028}' || c == '\U{2029}'
  }

  /** `\s` in a JavaScript regular expression: white space and line terminators. */
  predicate IsJsSpace(c: char) {
    || c == '\t' || c == '\U{000B}' || c == '\U{000C}' || c == ' '
    || c == '\U{00A0}' || c == '\U{FEFF}' || c == '\U{1680}'
    || ('\U{2000}' <= c <= '\U{200A}')
    || c == '\U{202F}' || c == '\U{205F}' || c == '\U{3000}'
    || IsLineTerminator(c)
  }

  // ---------------------------------------------------------------------------
  // STRIP_COMMENTS: line comments and block comments, replaced by ''

  /** The first line terminator at or after `i`, or `|s|` when there is none. */
  function LineEnd(s: string, i: nat): (j: nat)
    requires i <= |s|
    ensures i <= j <= |s|
    ensures forall t | i <= t < j :: !IsLineTerminator(s[t])
    ensures j < |s| ==> IsLineTerminator(s[j])
    decreases |s| - i
  {
    if i == |s| || IsLineTerminator(s[i]) then i else LineEnd(s, i + 1)
  }

  /** The start of the first `*` `/` pair at or after `i`, if any. */
  function CommentClose(s: string, i: nat): (r: Option<nat>)
    ensures r.Some? ==> i <= r.value && r.value + 1 < |s| && s[r.value] == '*' && s[r.value + 1] == '/'
    ensures r.Some? ==> forall t | i <= t < r.value :: !(s[t] == '*' && s[t + 1] == '/')
    ensures r.None? ==> forall t | i <= t && t + 1 < |s| :: !(s[t] == '*' && s[t + 1] == '/')
    decreases |s| - i
  {
    if i + 1 >= |s| then None
    else if s[i] == '*' && s[i + 1] == '/' then Some(i)
    else CommentClose(s, i + 1)
  }

  /** Removes, scanning left to right, every `//` comment up to (not
      including) the end of its line and every closed block comment; an
      unclosed block-comment opener is kept as text. No `//` survives in the result. */
  function StripComments(s: string): (r: string)
    ensures |r| <= |s|
    ensures |s| > 0 && s[0] != '/' ==> |r| > 0 && r[0] == s[0]
    ensures forall i | 0 <= i < |r| - 1 :: !(r[i] == '/' && r[i + 1] == '/')
    decreases |s|
  {
    if |s| < 2 then s
    else if s[0] == '/' && s[1] == '/' then StripComments(s[LineEnd(s, 2)..])
    else if s[0] == '/' && s[1] == '*' && CommentClose(s, 2).Some? then
      StripComments(s[CommentClose(s, 2).value + 2..])
    else
      var rest := StripComments(s[1..]);
      assert s[1] != '/' ==> |rest| > 0 && rest[0] == s[1];
      [s[0]] + rest
  }

  /** Text without a slash holds no comment and is kept as it is. */
  lemma {:induction false} StripCommentsNoSlash(s: string)
    requires '/' !in s
    ensures StripComments(s) == s
    decreases |s|
  {
    if |s| >= 2 {
      assert '/' !in s[1..];
      StripCommentsNoSlash(s[1..]);
    }
  }

  /** A slash-free prefix is copied through unchanged; stripping goes on after it. */
  lemma {:induction false} StripCommentsSlashFreePrefix(x: string, t: string)
    requires '/' !in x
    ensures StripComments(x + t) == x + StripComments(t)
    decreases |x|
  {
    if |x| > 0 {
      var s := x + t;
      if |s| >= 2 {
        assert s[0] == x[0] && s[1..] == x[1..] + t;
        assert '/' !in x[1..];
        StripCommentsSlashFreePrefix(x[1..], t);
        assert x == [x[0]] + x[1..];
      } else {
        assert t == [] && s == x;
      }
    } else {
      assert x + t == t;
    }
  }

  /** A closed block comment disappears, and only the comment: the text on
      both sides of it is kept. The body may hold anything but the closing
      pair, since the match ends at the first one. */
  lemma StripCommentsBlock(s: string, x: string, c: string, y: string)
    requires s == x + "/*" + c + "*/" + y
    requires '/' !in x && '/' !in y
    requires forall t | 0 <= t < |c| - 1 :: !(c[t] == '*' && c[t + 1] == '/')
    ensures StripComments(s) == x + y
  {
    var b := "/*" + c + "*/" + y;
    assert s == x + b;
    StripCommentsSlashFreePrefix(x, b);
    StripLeadingBlockComment(b, c, y);
  }

  lemma StripLeadingBlockComment(b: string, c: string, y: string)
    requires b == "/*" + c + "*/" + y && '/' !in y
    requires forall t | 0 <= t < |c| - 1 :: !(c[t] == '*' && c[t + 1] == '/')
    ensures StripComments(b) == y
  {
    CommentCloseAt(b, c, y);
    assert b[2 + |c| + 2..] == y;
    StripCommentsNoSlash(y);
  }

  /** The closing pair after a body without one is the first one found. */
  lemma CommentCloseAt(b: string, c: string, y: string)
    requires b == "/*" + c + "*/" + y
    requires forall t | 0 <= t < |c| - 1 :: !(c[t] == '*' && c[t + 1] == '/')
    ensures CommentClose(b, 2) == Some(2 + |c|)
  {
    var close := 2 + |c|;
    assert b[close] == '*' && b[close + 1] == '/';
    forall t | 2 <= t < close ensures !(b[t] == '*' && b[t + 1] == '/') {
      assert b[t] == c[t - 2];
      if t + 1 < close {
        assert b[t + 1] == c[t - 1];
      } else {
        assert b[t + 1] == '*';
      }
    }
  }

  /** A line comment disappears up to the end of its line; the line
      terminator and everything after it are kept. */
  lemma StripCommentsLine(s: string, x: string, l: string, e: char, y: string)
    requires s == x + "//" + l + [e] + y
    requires '/' !in x && '/' !in y && IsLineTerminator(e)
    requires forall i | 0 <= i < |l| :: !IsLineTerminator(l[i])
    ensures StripComments(s) == x + [e] + y
  {
    var b := "//" + l + [e] + y;
    assert s == x + b;
    StripCommentsSlashFreePrefix(x, b);
    StripLeadingLineComment(b, l, e, y);
    assert x + ([e] + y) == x + [e] + y;
  }

  lemma StripLeadingLineComment(b: string, l: string, e: char, y: string)
    requires b == "//" + l + [e] + y && '/' !in y && IsLineTerminator(e)
    requires forall i | 0 <= i < |l| :: !IsLineTerminator(l[i])
    ensures StripComments(b) == [e] + y
  {
    var end := 2 + |l|;
    assert LineEnd(b, 2) == end by {
      assert b[end] == e;
      assert forall t | 2 <= t < end :: b[t] == l[t - 2];
    }
    assert b[end..] == [e] + y;
    assert '/' !in [e] + y;
    StripCommentsNoSlash([e] + y);
  }

  // ---------------------------------------------------------------------------
  // indexOf and slice

  /** `s.indexOf(c)`: the first position of `c`, or -1. */
  function IndexOf(s: string, c: char): (r: int)
    ensures -1 <= r < |s|
    ensures r == -1 <==> c !in s
    ensures r >= 0 ==> s[r] == c && c !in s[..r]
    decreases |s|
  {
    if |s| == 0 then -1
    else if s[0] == c then 0
    else
      var t := IndexOf(s[1..], c);
      assert s[1..][..if t < 0 then 0 else t] == s[1..if t < 0 then 1 else t + 1];
      if t == -1 then -1 else t + 1
  }

  /** A `slice` bound: negative counts from the end, then clamped to `[0, len]`. */
  function SliceBound(x: int, len: nat): (b: nat)
    ensures b <= len
    ensures 0 <= x <= len ==> b == x
  {
    if x < 0 then (if len + x < 0 then 0 else len + x) else if x > len then len else x
  }

  /** `s.slice(start, end)`. */
  function JsSlice(s: string, start: int, end: int): string {
    var from, to := SliceBound(start, |s|), SliceBound(end, |s|);
    if from < to then s[from..to] else []
  }

  /** `slice` in terms of its arguments: in-range bounds take the text
      between them, crossed bounds give nothing, a negative bound counts from
      the end, and a bound past the end stops at the end. */
  lemma JsSliceCases(s: string, start: int, end: int)
    ensures 0 <= start <= end <= |s| ==> JsSlice(s, start, end) == s[start..end]
    ensures 0 <= end <= start ==> JsSlice(s, start, end) == []
    ensures end < 0 && 0 <= start <= |s| + end ==> JsSlice(s, start, end) == s[start..|s| + end]
    ensures start < 0 && 0 <= |s| + start <= end <= |s| ==> JsSlice(s, start, end) == s[|s| + start..end]
    ensures |s| < end && 0 <= start <= |s| ==> JsSlice(s, start, end) == s[start..]
    ensures |s| <= start ==> JsSlice(s, start, end) == []
  {
  }

  // ---------------------------------------------------------------------------
  // ARGUMENT_NAMES = /([^\s,]+)/g

  predicate IsSeparator(c: char) {
    IsJsSpace(c) || c == ','
  }

  predicate NoSeparator(w: string) {
    forall i | 0 <= i < |w| :: !IsSeparator(w[i])
  }

  /** The length of the leading run of non-separator characters. */
  function RunLength(s: string): (n: nat)
    ensures n <= |s|
    ensures NoSeparator(s[..n])
    ensures n < |s| ==> IsSeparator(s[n])
    decreases |s|
  {
    if |s| == 0 || IsSeparator(s[0]) then 0
    else
      var n := 1 + RunLength(s[1..]);
      assert s[..n] == [s[0]] + s[1..][..n - 1];
      n
  }

  /** The matches of the global regular expression, in order. */
  function Tokens(s: string): (r: seq<string>)
    ensures forall i | 0 <= i < |r| :: |r[i]| > 0 && NoSeparator(r[i])
    decreases |s|
  {
    if |s| == 0 then []
    else if IsSeparator(s[0]) then Tokens(s[1..])
    else
      var n := RunLength(s);
      [s[..n]] + Tokens(s[n..])
  }

  /** A run stops at the first separator, wherever the text goes on after it. */
  lemma {:induction false} RunLengthStops(a: string, t: string)
    requires |t| > 0 && IsSeparator(t[0])
    ensures RunLength(a + t) == RunLength(a)
    decreases |a|
  {
    if |a| > 0 && !IsSeparator(a[0]) {
      assert (a + t)[1..] == a[1..] + t;
      RunLengthStops(a[1..], t);
    }
  }

  /** A separator splits the token list: tokenising `a`, a separator and `b`
      gives the tokens of `a` followed by those of `b`. */
  lemma {:induction false} TokensSplit(a: string, c: char, b: string)
    requires IsSeparator(c)
    ensures Tokens(a + [c] + b) == Tokens(a) + Tokens(b)
    decreases |a|
  {
    var s := a + [c] + b;
    if |a| == 0 {
      assert s[1..] == b;
    } else if IsSeparator(a[0]) {
      assert s[1..] == a[1..] + [c] + b;
      TokensSplit(a[1..], c, b);
    } else {
      RunLengthStops(a, [c] + b);
      assert s == a + ([c] + b);
      var n := RunLength(a);
      if n == |a| {
        assert s[..n] == a && s[n..] == [c] + b;
        assert a[..n] == a && a[n..] == [];
        assert Tokens(a[n..]) == [];
        assert Tokens(a) == [a];
        assert ([c] + b)[1..] == b;
      } else {
        assert s[..n] == a[..n];
        assert s[n..] == a[n..] + [c] + b;
        TokensSplit(a[n..], c, b);
      }
    }
  }

  /** A non-empty run without separators is one token. */
  lemma TokensOfWord(w: string)
    requires |w| > 0 && NoSeparator(w)
    ensures Tokens(w) == [w]
  {
    var n := RunLength(w);
    assert n == |w|;
    assert w[..n] == w && w[n..] == [];
    assert Tokens(w[n..]) == [];
  }

  // ---------------------------------------------------------------------------
  // Stripping default values

  /** `t.split('=')[0]`: the text before the first `=`. */
  function BeforeEquals(t: string): (r: string)
    ensures '=' !in r
    ensures r <= t
    ensures '=' !in t ==> r == t
    ensures '=' in t ==> |r| < |t| && t[|r|] == '='
  {
    var i := IndexOf(t, '=');
    if i < 0 then t else t[..i]
  }

  function Min(x: int, y: int): int {
    if x < y then x else y
  }

  /** The `for` loop of lib/Utils.ts:145-152 from index `i` on: a lone `=`
      is spliced out with the token after it, a token containing `=` is cut
      before it and the token after it is spliced out; `i` always advances,
      so the token moved into position `i` by a splice is not looked at. */
  function StripDefaults(r: seq<string>, i: nat): (out: seq<string>)
    ensures |out| <= |r|
    decreases |r| - i
  {
    if i >= |r| then r
    else if r[i] == "=" then
      StripDefaults(r[..i] + r[Min(i + 2, |r|)..], i + 1)
    else if '=' in r[i] then
      StripDefaults(r[..i] + [BeforeEquals(r[i])] + r[Min(i + 2, |r|)..], i + 1)
    else
      StripDefaults(r, i + 1)
  }

  /** The same rewrite read as a left-to-right pass over a token stream. */
  function Strip(r: seq<string>): seq<string>
    decreases |r|
  {
    if |r| == 0 then []
    else if r[0] == "=" then (if |r| <= 2 then [] else [r[2]] + Strip(r[3..]))
    else if '=' in r[0] then [BeforeEquals(r[0])] + Strip(r[Min(2, |r|)..])
    else [r[0]] + Strip(r[1..])
  }

  /** The index-and-splice loop computes the stream rewrite of the tokens it
      has not yet passed. */
  lemma {:induction false} StripDefaultsIsStrip(r: seq<string>, i: nat)
    requires i <= |r|
    ensures StripDefaults(r, i) == r[..i] + Strip(r[i..])
    decreases |r| - i
  {
    if i == |r| {
      assert r[..i] == r;
    } else if r[i] == "=" {
      if |r| - i <= 2 {
        LoneEqualsAtEnd(r, i);
      } else {
        var r' := r[..i] + r[i + 2..];
        StripDefaultsIsStrip(r', i + 1);
        LoneEqualsStep(r, i);
      }
    } else if '=' in r[i] {
      var r' := r[..i] + [BeforeEquals(r[i])] + r[Min(i + 2, |r|)..];
      StripDefaultsIsStrip(r', i + 1);
      DefaultStep(r, i);
    } else {
      StripDefaultsIsStrip(r, i + 1);
      PlainStep(r, i);
    }
  }

  lemma LoneEqualsAtEnd(r: seq<string>, i: nat)
    requires i < |r| <= i + 2 && r[i] == "="
    ensures StripDefaults(r, i) == r[..i] + Strip(r[i..])
  {
    var r' := r[..i] + r[Min(i + 2, |r|)..];
    assert r' == r[..i];
    assert StripDefaults(r, i) == StripDefaults(r', i + 1) == r';
    var t := r[i..];
    assert t[0] == "=" && |t| <= 2;
    assert Strip(t) == [];
  }

  lemma LoneEqualsStep(r: seq<string>, i: nat)
    requires i + 2 < |r| && r[i] == "="
    requires var r' := r[..i] + r[i + 2..];
             StripDefaults(r', i + 1) == r'[..i + 1] + Strip(r'[i + 1..])
    ensures StripDefaults(r, i) == r[..i] + Strip(r[i..])
  {
    var r' := r[..i] + r[i + 2..];
    assert r[..i] + r[Min(i + 2, |r|)..] == r';
    assert r'[..i + 1] == r[..i] + [r[i + 2]];
    assert r'[i + 1..] == r[i + 3..];
    var t := r[i..];
    assert t[0] == "=" && |t| > 2 && t[2] == r[i + 2];
    assert t[3..] == r[i + 3..];
    assert Strip(t) == [r[i + 2]] + Strip(r[i + 3..]);
  }

  lemma DefaultStep(r: seq<string>, i: nat)
    requires i < |r| && r[i] != "=" && '=' in r[i]
    requires var r' := r[..i] + [BeforeEquals(r[i])] + r[Min(i + 2, |r|)..];
             StripDefaults(r', i + 1) == r'[..i + 1] + Strip(r'[i + 1..])
    ensures StripDefaults(r, i) == r[..i] + Strip(r[i..])
  {
    var r' := r[..i] + [BeforeEquals(r[i])] + r[Min(i + 2, |r|)..];
    assert r'[..i + 1] == r[..i] + [BeforeEquals(r[i])];
    var t := r[i..];
    assert t[0] == r[i];
    assert t[Min(2, |t|)..] == r[Min(i + 2, |r|)..] == r'[i + 1..];
    assert Strip(t) == [BeforeEquals(r[i])] + Strip(t[Min(2, |t|)..]);
  }

  lemma PlainStep(r: seq<string>, i: nat)
    requires i < |r| && r[i] != "=" && '=' !in r[i]
    requires StripDefaults(r, i + 1) == r[..i + 1] + Strip(r[i + 1..])
    ensures StripDefaults(r, i) == r[..i] + Strip(r[i..])
  {
    assert r[..i + 1] == r[..i] + [r[i]];
    var t := r[i..];
    assert t[0] == r[i] && t[1..] == r[i + 1..];
    assert Strip(t) == [r[i]] + Strip(t[1..]);
  }

  /** Tokens without `=` are kept as they are. */
  lemma {:induction false} StripWithoutDefaults(r: seq<string>)
    requires forall i | 0 <= i < |r| :: '=' !in r[i]
    ensures Strip(r) == r
    decreases |r|
  {
    if |r| > 0 {
      StripWithoutDefaults(r[1..]);
    }
  }

  /** `a=1, b` loses `b`: the token after a cut `a=1` is spliced out. */
  lemma StripDropsTokenAfterDefault(r: seq<string>)
    requires r == ["a=1", "b"]
    ensures Strip(r) == ["a"]
  {
    assert |r[0]| == 3 && r[0][1] == '=' && r[0] != "=";
    assert IndexOf(r[0], '=') == 1 by {
      IndexOfAt(r[0], '=', 1);
    }
    assert r[0][..1] == "a";
    assert r[Min(2, |r|)..] == [];
  }

  /** `a = 1, b=2` keeps `b=2`: after splicing out `=` and `1`, the loop
      steps past the token that moved into place. */
  lemma StripSkipsTokenAfterSplice(r: seq<string>)
    requires r == ["a", "=", "1", "b=2"]
    ensures Strip(r) == ["a", "b=2"]
  {
    assert '=' !in r[0] && r[0] != "=";
    assert r[1..] == ["=", "1", "b=2"];
    assert r[1..][3..] == [];
    assert Strip(r[1..]) == ["b=2"];
  }

  // ---------------------------------------------------------------------------

  /** `Utils.getParamNames(func)` for a string `func`. No match (`null`) and
      a first token `class` both give the empty list. */
  function GetParamNames(func: string): (names: seq<string>)
    ensures forall i | 0 <= i < |names| :: NoSeparator(names[i])
  {
    var src := StripComments(func);
    var inner := JsSlice(src, IndexOf(src, '(') + 1, IndexOf(src, ')'));
    var tokens := Tokens(inner);
    if |tokens| == 0 then []
    else if tokens[0] == "class" then []
    else StripDefaultsNames(tokens)
  }

  /** The loop keeps every name free of separators (cutting at `=` keeps a
      prefix of a token). */
  function StripDefaultsNames(tokens: seq<string>): (names: seq<string>)
    requires forall i | 0 <= i < |tokens| :: NoSeparator(tokens[i])
    ensures forall i | 0 <= i < |names| :: NoSeparator(names[i])
    ensures names == Strip(tokens)
  {
    StripDefaultsIsStrip(tokens, 0);
    StripKeepsNoSeparator(tokens);
    StripDefaults(tokens, 0)
  }

  lemma {:induction false} StripKeepsNoSeparator(r: seq<string>)
    requires forall i | 0 <= i < |r| :: NoSeparator(r[i])
    ensures forall i | 0 <= i < |Strip(r)| :: NoSeparator(Strip(r)[i])
    decreases |r|
  {
    if |r| > 0 {
      if r[0] == "=" {
        if |r| > 2 {
          StripKeepsNoSeparator(r[3..]);
        }
      } else if '=' in r[0] {
        StripKeepsNoSeparator(r[Min(2, |r|)..]);
        var b := BeforeEquals(r[0]);
        assert forall j | 0 <= j < |b| :: b[j] == r[0][j];
      } else {
        assert forall i | 0 <= i < |r| - 1 :: r[1..][i] == r[i + 1];
        StripKeepsNoSeparator(r[1..]);
      }
    }
  }

  /** For a comment-free signature (one the comment stripper leaves as it
      is), only the text between the first `(` and the
      first `)` after it counts: whatever follows is ignored, and the names
      are the stripped tokens of the parameter text. */
  lemma GetParamNamesOfSignature(s: string, head: string, params: string, tail: string)
    requires s == head + "(" + params + ")" + tail && StripComments(s) == s
    requires '(' !in head && ')' !in head && ')' !in params
    ensures var tokens := Tokens(params);
            GetParamNames(s) == if |tokens| == 0 || tokens[0] == "class" then [] else Strip(tokens)
  {
    SignatureParts(s, head, params, tail);
    assert JsSlice(s, IndexOf(s, '(') + 1, IndexOf(s, ')')) == params;
  }

  /** Without any parenthesis both `indexOf` calls give -1, so the slice runs
      from the start to one before the end: the last character is dropped
      and the rest is tokenised (this is how `class A {}` yields no names). */
  lemma GetParamNamesWithoutParentheses(s: string)
    requires |s| > 0 && StripComments(s) == s && '(' !in s && ')' !in s
    ensures var tokens := Tokens(s[..|s| - 1]);
            GetParamNames(s) == if |tokens| == 0 || tokens[0] == "class" then [] else Strip(tokens)
  {
    assert JsSlice(s, IndexOf(s, '(') + 1, IndexOf(s, ')')) == s[..|s| - 1];
  }

  /** Where the parentheses of a signature are, and what lies between them. */
  lemma SignatureParts(s: string, head: string, params: string, tail: string)
    requires s == head + "(" + params + ")" + tail
    requires '(' !in head && ')' !in head && ')' !in params
    ensures IndexOf(s, '(') == |head|
    ensures IndexOf(s, ')') == |head| + 1 + |params|
    ensures s[|head| + 1..|head| + 1 + |params|] == params
  {
    var close := |head| + 1 + |params|;
    assert s[..|head|] == head;
    IndexOfAt(s, '(', |head|);
    assert s[..close] == head + "(" + params;
    assert ')' !in s[..close];
    IndexOfAt(s, ')', close);
  }

  /** `indexOf` finds a position when the character occurs there and not before. */
  lemma IndexOfAt(s: string, c: char, i: nat)
    requires i < |s| && s[i] == c && c !in s[..i]
    ensures IndexOf(s, c) == i
  {
    var r := IndexOf(s, c);
    assert s[..i + 1][i] == c;
  }

  /** A parameter list with a default: `function f(a=1, b) {}` yields only `a`. */
  lemma GetParamNamesDefaultExample(head: string, params: string, tail: string)
    requires head == "function f" && params == "a=1, b" && tail == " {}"
    ensures GetParamNames(head + "(" + params + ")" + tail) == ["a"]
  {
    assert '/' !in head + "(" + params + ")" + tail;
    StripCommentsNoSlash(head + "(" + params + ")" + tail);
    GetParamNamesOfSignature(head + "(" + params + ")" + tail, head, params, tail);
    ExampleTokens(params);
    StripDropsTokenAfterDefault(["a=1", "b"]);
  }

  lemma ExampleTokens(params: string)
    requires params == "a=1, b"
    ensures Tokens(params) == ["a=1", "b"]
  {
    ExampleTokensSplit(params);
    ExampleTokensFirst();
    ExampleTokensSecond();
  }

  lemma ExampleTokensSplit(params: string)
    requires params == "a=1, b"
    ensures Tokens(params) == Tokens("a=1") + Tokens(" b")
  {
    assert params == "a=1" + [','] + " b";
    TokensSplit("a=1", ',', " b");
  }

  lemma ExampleTokensFirst()
    ensures Tokens("a=1") == ["a=1"]
  {
    TokensOfWord("a=1");
  }

  lemma ExampleTokensSecond()
    ensures Tokens(" b") == ["b"]
  {
    assert " b" == "" + [' '] + "b";
    TokensSplit("", ' ', "b");
    TokensOfWord("b");
  }
}

=== FILE: query.dfy ===
/** Query preparation: `Utils.renameKey` (lib/Utils.ts:104-109),
    `Utils.convertObjectIds` (lib/Utils.ts:111-127) and `Utils.prepareQuery`
    (lib/Utils.ts:99-102). The source mutates the query in place; here each
    operation returns the query as it stands afterwards. */
module Query {
  import opened Wrappers
  import opened Values

  /** Whether `renameKey` moves the value: `payload[from] && !payload[to]`. */
  predicate RenameApplies(payload: map<string, Value>, from: string, to: string) {
    Truthy(Prop(payload, from)) && !Truthy(Prop(payload, to))
  }

  /** `Utils.renameKey(payload, from, to)` on a plain-object payload: a truthy
      value under `from` moves to `to` unless `to` already holds a truthy value. */
  function RenameKey(payload: map<string, Value>, from: string, to: string): (r: map<string, Value>)
    ensures RenameApplies(payload, from, to) ==>
              && from != to
              && r.Keys == payload.Keys - {from} + {to}
              && r[to] == payload[from]
              && forall k | k in r && k != to :: r[k] == payload[k]
    ensures !RenameApplies(payload, from, to) ==> r == payload
  {
    if RenameApplies(payload, from, to) then payload[to := payload[from]] - {from} else payload
  }

  /** Renaming back undoes a rename, provided `to` was absent before (a
      present but falsy `to` is overwritten and cannot be restored). */
  lemma RenameKeyInverse(payload: map<string, Value>, from: string, to: string)
    requires RenameApplies(payload, from, to) && to !in payload
    ensures RenameApplies(RenameKey(payload, from, to), to, from)
    ensures RenameKey(RenameKey(payload, from, to), to, from) == payload
  {
    var r := RenameKey(payload, from, to);
    var back := RenameKey(r, to, from);
    assert back.Keys == payload.Keys;
  }

  // ---------------------------------------------------------------------------
  // ObjectID conversion

  predicate IsHexDigit(c: char) {
    ('0' <= c <= '9') || ('a' <= c <= 'f') || ('A' <= c <= 'F')
  }

  /** `/^[0-9a-f]{24}$/i`: exactly 24 hexadecimal digits, either case. */
  predicate IsObjectIdHex(s: string) {
    |s| == 24 && forall i | 0 <= i < |s| :: IsHexDigit(s[i])
  }

  /** What the `forEach` callback of `convertObjectIds` leaves in `payload[k]`
      when it held `v`: an ObjectID for a 24-hex-digit string, an array of
      ObjectIDs for an array (whatever its elements), the converted object for
      any other `typeof 'object'` value (so `null` throws), `v` otherwise. */
  function ConvertEntry(v: Value): Result<Value>
    decreases v, 1
  {
    if IsString(v) && IsObjectIdHex(v.s) then Ok(Oid(v))
    else if IsArray(v) then Ok(Arr(seq(|v.elems|, i requires 0 <= i < |v.elems| => Oid(v.elems[i]))))
    else if IsObject(v) then ConvertObjectIds(v)
    else Ok(v)
  }

  /** `Utils.convertObjectIds(payload)`: every own key of the payload is
      converted; strings, numbers and booleans have no key it can change. */
  function ConvertObjectIds(payload: Value): (r: Result<Value>)
    ensures Nullish(payload) ==> r.TypeError?
    ensures r.Ok? && payload.Obj? ==> r.value.Obj? && r.value.props.Keys == payload.props.Keys
    ensures r.Ok? && payload.Arr? ==> r.value.Arr? && |r.value.elems| == |payload.elems|
    ensures !payload.Obj? && !payload.Arr? && !Nullish(payload) ==> r == Ok(payload)
    decreases payload, 0
  {
    match payload
    case Undef => TypeError
    case Null => TypeError
    case Obj(m) =>
      if exists k | k in m :: ConvertEntry(m[k]).TypeError? then TypeError
      else Ok(Obj(map k | k in m :: ConvertEntry(m[k]).value))
    case Arr(s) =>
      if exists i | 0 <= i < |s| :: ConvertEntry(s[i]).TypeError? then TypeError
      else Ok(Arr(seq(|s|, i requires 0 <= i < |s| => ConvertEntry(s[i]).value)))
    case _ => Ok(payload)
  }

  /** A plain-object field holding a 24-hex-digit string becomes an ObjectID
      of it; one holding an array becomes the array of ObjectIDs of its
      elements; a nested plain object is replaced by its own conversion; an
      ObjectID and any other non-object value are kept; and a successful
      conversion had no `null` field. */
  lemma ConvertObjectIdsField(m: map<string, Value>, k: string)
    requires k in m && ConvertObjectIds(Obj(m)).Ok?
    ensures m[k].Str? && IsObjectIdHex(m[k].s) ==> ConvertObjectIds(Obj(m)).value.props[k] == Oid(m[k])
    ensures m[k].Arr? ==>
              && ConvertObjectIds(Obj(m)).value.props[k].Arr?
              && |ConvertObjectIds(Obj(m)).value.props[k].elems| == |m[k].elems|
              && forall i | 0 <= i < |m[k].elems| ::
                   ConvertObjectIds(Obj(m)).value.props[k].elems[i] == Oid(m[k].elems[i])
    ensures !IsObject(m[k]) && !(m[k].Str? && IsObjectIdHex(m[k].s)) ==>
              ConvertObjectIds(Obj(m)).value.props[k] == m[k]
    ensures m[k].Obj? ==>
              && ConvertObjectIds(m[k]).Ok?
              && ConvertObjectIds(Obj(m)).value.props[k] == ConvertObjectIds(m[k]).value
    ensures m[k].Oid? ==> ConvertObjectIds(Obj(m)).value.props[k] == m[k]
    ensures !m[k].Null?
  {
  }

  /** The array twin of `ConvertObjectIdsField`: an element holding a
      24-hex-digit string becomes an ObjectID of it, an array element becomes
      the array of ObjectIDs of its elements, a plain-object element is
      replaced by its own conversion, any other element is kept, and a
      successful conversion had no `null` element. */
  lemma ConvertObjectIdsElement(s: seq<Value>, i: nat)
    requires i < |s| && ConvertObjectIds(Arr(s)).Ok?
    ensures s[i].Str? && IsObjectIdHex(s[i].s) ==> ConvertObjectIds(Arr(s)).value.elems[i] == Oid(s[i])
    ensures s[i].Arr? ==>
              && ConvertObjectIds(Arr(s)).value.elems[i].Arr?
              && |ConvertObjectIds(Arr(s)).value.elems[i].elems| == |s[i].elems|
              && forall j | 0 <= j < |s[i].elems| ::
                   ConvertObjectIds(Arr(s)).value.elems[i].elems[j] == Oid(s[i].elems[j])
    ensures !IsObject(s[i]) && !(s[i].Str? && IsObjectIdHex(s[i].s)) ==>
              ConvertObjectIds(Arr(s)).value.elems[i] == s[i]
    ensures s[i].Obj? ==>
              && ConvertObjectIds(s[i]).Ok?
              && ConvertObjectIds(Arr(s)).value.elems[i] == ConvertObjectIds(s[i]).value
    ensures s[i].Oid? ==> ConvertObjectIds(Arr(s)).value.elems[i] == s[i]
    ensures !s[i].Null?
  {
  }

  /** An entry that holds `null`, directly or inside nested plain objects. */
  predicate EntryHoldsNull(v: Value)
    decreases v, 1
  {
    v.Null? || (v.Obj? && HoldsNull(v))
  }

  /** Some key of the payload leads, through plain objects only, to `null`. */
  predicate HoldsNull(v: Value)
    decreases v, 0
  {
    match v
    case Obj(m) => exists k | k in m :: EntryHoldsNull(m[k])
    case Arr(s) => exists i | 0 <= i < |s| :: EntryHoldsNull(s[i])
    case _ => false
  }

  /** `convertObjectIds` throws exactly when the payload itself is undefined
      or null, or a null is reachable from it through plain objects (arrays
      are wrapped, never descended into below the top level). */
  lemma {:induction false} ConvertObjectIdsFails(payload: Value)
    ensures ConvertObjectIds(payload).TypeError? <==> Nullish(payload) || HoldsNull(payload)
    decreases payload
  {
    match payload
    case Obj(m) =>
      forall k | k in m ensures ConvertEntry(m[k]).TypeError? <==> EntryHoldsNull(m[k]) {
        if m[k].Obj? {
          ConvertObjectIdsFails(m[k]);
        }
      }
    case Arr(s) =>
      forall i | 0 <= i < |s| ensures ConvertEntry(s[i]).TypeError? <==> EntryHoldsNull(s[i]) {
        if s[i].Obj? {
          ConvertObjectIdsFails(s[i]);
        }
      }
    case _ =>
  }

  /** An entry that is a 24-hex-digit string, directly or inside nested plain objects. */
  predicate EntryHoldsHex(v: Value)
    decreases v, 1
  {
    (v.Str? && IsObjectIdHex(v.s)) || (v.Obj? && HoldsHex(v))
  }

  /** Some key of the payload leads, through plain objects only, to a
      24-hex-digit string. */
  predicate HoldsHex(v: Value)
    decreases v, 0
  {
    match v
    case Obj(m) => exists k | k in m :: EntryHoldsHex(m[k])
    case Arr(s) => exists i | 0 <= i < |s| :: EntryHoldsHex(s[i])
    case _ => false
  }

  /** After a successful conversion no 24-hex-digit string is left where the
      conversion looks: every one reachable through plain objects was wrapped. */
  lemma {:induction false} ConvertObjectIdsLeavesNoHex(payload: Value)
    requires ConvertObjectIds(payload).Ok?
    ensures !HoldsHex(ConvertObjectIds(payload).value)
    decreases payload, 0
  {
    match payload
    case Obj(m) =>
      var r := ConvertObjectIds(payload).value.props;
      forall k | k in m ensures !EntryHoldsHex(r[k]) {
        ConvertEntryLeavesNoHex(m[k]);
      }
    case Arr(s) =>
      var r := ConvertObjectIds(payload).value.elems;
      forall i | 0 <= i < |s| ensures !EntryHoldsHex(r[i]) {
        ConvertEntryLeavesNoHex(s[i]);
      }
    case _ =>
  }

  lemma {:induction false} ConvertEntryLeavesNoHex(v: Value)
    requires ConvertEntry(v).Ok?
    ensures !EntryHoldsHex(ConvertEntry(v).value)
    decreases v, 1
  {
    if IsString(v) && IsObjectIdHex(v.s) {
    } else if IsArray(v) {
    } else if IsObject(v) {
      ConvertObjectIdsLeavesNoHex(v);
    }
  }

  /** No ObjectID occurs anywhere inside `v`. */
  predicate NoOid(v: Value)
    decreases v
  {
    match v
    case Oid(_) => false
    case Obj(m) => forall k | k in m :: NoOid(m[k])
    case Arr(s) => forall i | 0 <= i < |s| :: NoOid(s[i])
    case _ => true
  }

  /** `v` with every ObjectID replaced by its constructor argument. */
  function Unwrap(v: Value): Value
    decreases v
  {
    match v
    case Oid(src) => Unwrap(src)
    case Obj(m) => Obj(map k | k in m :: Unwrap(m[k]))
    case Arr(s) => Arr(seq(|s|, i requires 0 <= i < |s| => Unwrap(s[i])))
    case _ => v
  }

  lemma {:induction false} UnwrapNoOid(v: Value)
    requires NoOid(v)
    ensures Unwrap(v) == v
    decreases v
  {
    match v
    case Obj(m) =>
      forall k | k in m ensures Unwrap(m[k]) == m[k] {
        UnwrapNoOid(m[k]);
      }
      assert Unwrap(v).props == m;
    case Arr(s) =>
      forall i | 0 <= i < |s| ensures Unwrap(s[i]) == s[i] {
        UnwrapNoOid(s[i]);
      }
      assert Unwrap(v).elems == s;
    case _ =>
  }

  /** Conversion only wraps: erasing the ObjectIDs it introduced gives back
      the original payload. */
  lemma {:induction false} ConvertObjectIdsOnlyWraps(payload: Value)
    requires NoOid(payload) && ConvertObjectIds(payload).Ok?
    ensures Unwrap(ConvertObjectIds(payload).value) == payload
    decreases payload, 0
  {
    match payload
    case Obj(m) =>
      var r := ConvertObjectIds(payload).value.props;
      forall k | k in m ensures Unwrap(r[k]) == m[k] {
        ConvertEntryOnlyWraps(m[k]);
      }
      assert Unwrap(ConvertObjectIds(payload).value).props == m;
    case Arr(s) =>
      var r := ConvertObjectIds(payload).value.elems;
      forall i | 0 <= i < |s| ensures Unwrap(r[i]) == s[i] {
        ConvertEntryOnlyWraps(s[i]);
      }
      assert Unwrap(ConvertObjectIds(payload).value).elems == s;
    case _ =>
      UnwrapNoOid(payload);
  }

  lemma {:induction false} ConvertEntryOnlyWraps(v: Value)
    requires NoOid(v) && ConvertEntry(v).Ok?
    ensures Unwrap(ConvertEntry(v).value) == v
    decreases v, 1
  {
    if IsString(v) && IsObjectIdHex(v.s) {
    } else if IsArray(v) {
      var r := ConvertEntry(v).value.elems;
      forall i | 0 <= i < |v.elems| ensures Unwrap(r[i]) == v.elems[i] {
        UnwrapNoOid(v.elems[i]);
      }
      assert Unwrap(ConvertEntry(v).value).elems == v.elems;
    } else if IsObject(v) {
      ConvertObjectIdsOnlyWraps(v);
    } else {
      UnwrapNoOid(v);
    }
  }

  // ---------------------------------------------------------------------------

  /** `Utils.prepareQuery(query)`: rename `id` to `_id`, then convert
      ObjectID strings. Reading `query.id` throws on undefined/null; on any
      other non-object it is undefined, so nothing is renamed. */
  function PrepareQuery(query: Value): (r: Result<Value>)
    ensures Nullish(query) ==> r.TypeError?
  {
    match query
    case Undef => TypeError
    case Null => TypeError
    case Obj(m) => ConvertObjectIds(Obj(RenameKey(m, "id", "_id")))
    case _ => ConvertObjectIds(query)
  }

  /** A query by a 24-hex-digit `id` (and without a truthy `_id`) becomes a
      query by `_id` holding the ObjectID of that string. */
  lemma PrepareQueryById(m: map<string, Value>, s: string)
    requires "id" in m && m["id"] == Str(s) && IsObjectIdHex(s)
    requires !Truthy(Prop(m, "_id"))
    ensures PrepareQuery(Obj(m)).Ok? ==>
              && "id" !in PrepareQuery(Obj(m)).value.props
              && "_id" in PrepareQuery(Obj(m)).value.props
              && PrepareQuery(Obj(m)).value.props["_id"] == Oid(Str(s))
  {
    var renamed := RenameKey(m, "id", "_id");
    if ConvertObjectIds(Obj(renamed)).Ok? {
      ConvertObjectIdsField(renamed, "_id");
    }
  }
}

=== FILE: sanitizer.dfy ===
/** The entity snapshot sanitizer `Utils.prepareEntity` (lib/Utils.ts:69-93)
    and `Utils.diffEntities` (lib/Utils.ts:65-67). */
module Sanitizer {
  import opened Wrappers
  import opened Values
  import Differ

  /** The value of one own property of an entity. */
  datatype Field =
    | Plain(value: Value)             // neither an entity nor a collection
    | Ref(storedId: Value)            // a `BaseEntity`; `storedId` is its `_id` (`Undef` when unset)
    | Coll                            // a lazy `Collection` handle

  /** An entity's own enumerable properties (what `Object.keys(e)` lists). */
  type Entity = map<string, Field>

  /** A reference that has not been saved yet (`!ret[prop]._id`). */
  predicate IsUnsavedRef(f: Field) {
    f.Ref? && !Truthy(f.storedId)
  }

  /** Fields the first pass deletes when they are declared. */
  predicate IsDroppedRelation(f: Field) {
    f.Coll? || IsUnsavedRef(f)
  }

  /** A field that survives sanitization when declared. */
  predicate IsComparable(f: Field) {
    f.Plain? || (f.Ref? && Truthy(f.storedId))
  }

  /** First pass (lib/Utils.ts:75-83), over the declared properties of the
      copy: collections and unsaved references are deleted, a saved reference
      is replaced by its `id`, anything else is left alone. A declared
      property the entity lacks is untouched (`undefined instanceof` is false). */
  function DropRelations(ret: Entity, declared: set<string>, idOf: Value -> Value): (r: Entity)
    ensures r.Keys == ret.Keys - (set k | k in ret && k in declared && IsDroppedRelation(ret[k]))
    ensures forall k | k in r && k in declared :: IsComparable(ret[k]) && r[k] == Plain(Flatten(ret[k], idOf))
    ensures forall k | k in r && k !in declared :: r[k] == ret[k]
  {
    map k | k in ret && !(k in declared && IsDroppedRelation(ret[k])) ::
      if k in declared && ret[k].Ref? then Plain(idOf(ret[k].storedId)) else ret[k]
  }

  /** Second pass (lib/Utils.ts:86-90): every own property of the original
      entity that is not declared is deleted from the copy. */
  function DropUndeclared(ret: Entity, e: Entity, declared: set<string>): (r: Entity)
    ensures r.Keys == ret.Keys - (e.Keys - declared)
    ensures forall k | k in r :: r[k] == ret[k]
  {
    map k | k in ret && !(k in e && k !in declared) :: ret[k]
  }

  /** The comparable value of a surviving field: the plain value itself, or
      the `id` of a saved reference. */
  function Flatten(f: Field, idOf: Value -> Value): Value
    requires IsComparable(f)
  {
    if f.Ref? then idOf(f.storedId) else f.value
  }

  /** `Utils.prepareEntity(e)` with the entity's declared property names and
      the `id` getter of a saved reference given explicitly. The copy made by
      `Utils.copy` is the entity itself: values are immutable here. */
  function PrepareEntity(e: Entity, declared: set<string>, idOf: Value -> Value): (r: map<string, Value>)
    ensures r.Keys == set k | k in e && k in declared && IsComparable(e[k])
    ensures forall k | k in r :: r[k] == Flatten(e[k], idOf)
  {
    var snapshot := DropUndeclared(DropRelations(e, declared, idOf), e, declared);
    map k | k in snapshot :: snapshot[k].value
  }

  /** `Utils.diffEntities(a, b)`: the diff of the two sanitized snapshots.
      Whatever it reports is a declared, comparable field of `b`. */
  function DiffEntities(a: Entity, b: Entity, declared: set<string>, idOf: Value -> Value)
    : (r: Result<map<string, Value>>)
    ensures r.Ok? ==> forall k | k in r.value ::
              && k in b && k in declared && k !in Differ.IgnoredKeys
              && !b[k].Coll? && !IsUnsavedRef(b[k])
  {
    Differ.Diff(Obj(PrepareEntity(a, declared, idOf)), Obj(PrepareEntity(b, declared, idOf)))
  }

  /** Diffing an entity against itself reports exactly the declared,
      comparable, non-bookkeeping fields whose snapshot value is `undefined`,
      each as `undefined`; in particular nothing when no such field exists. */
  lemma DiffEntitiesSelf(e: Entity, declared: set<string>, idOf: Value -> Value)
    ensures DiffEntities(e, e, declared, idOf)
            == Ok(map k | k in e && k in declared && k !in Differ.IgnoredKeys
                          && IsComparable(e[k]) && Flatten(e[k], idOf) == Undef :: Undef)
  {
    var snap := Obj(PrepareEntity(e, declared, idOf));
    Differ.DiffSelf(snap);
    var viaSnapshot := map k | k in OwnKeys(snap).value && k !in Differ.IgnoredKeys
                                 && Get(snap, k) == Ok(Undef) :: Undef;
    var viaEntity := map k | k in e && k in declared && k !in Differ.IgnoredKeys
                               && IsComparable(e[k]) && Flatten(e[k], idOf) == Undef :: Undef;
    assert viaSnapshot.Keys == viaEntity.Keys;
  }

  /** Pointing a declared reference at another saved entity is reported as
      the new entity's `id` when the ids differ and the new id is a scalar. */
  lemma DiffEntitiesReportsReferenceSwitch(a: Entity, b: Entity, declared: set<string>,
                                           idOf: Value -> Value, k: string)
    requires k in declared && k !in Differ.IgnoredKeys
    requires k in a && a[k].Ref? && Truthy(a[k].storedId)
    requires k in b && b[k].Ref? && Truthy(b[k].storedId)
    requires idOf(a[k].storedId) != Undef
    requires idOf(a[k].storedId) != idOf(b[k].storedId)
    requires !IsObject(idOf(b[k].storedId))
    ensures DiffEntities(a, b, declared, idOf).Ok? ==>
              && k in DiffEntities(a, b, declared, idOf).value
              && DiffEntities(a, b, declared, idOf).value[k] == idOf(b[k].storedId)
  {
    var sa := Obj(PrepareEntity(a, declared, idOf));
    var sb := Obj(PrepareEntity(b, declared, idOf));
    if Differ.Diff(sa, sb).Ok? {
      assert Get(sa, k) == Ok(idOf(a[k].storedId));
      assert Get(sb, k) == Ok(idOf(b[k].storedId));
      Differ.DiffReportsScalarChange(sa, sb, k);
    }
  }

  /** An entity whose owner is an unsaved reference: the snapshot omits the
      owner, so no diff against it ever reports the owner. */
  lemma ExampleUnsavedOwner(e: Entity, other: Entity, idOf: Value -> Value)
    requires e == map["owner" := Ref(Undef), "title" := Plain(Str("t"))]
    ensures PrepareEntity(e, {"owner", "title"}, idOf) == map["title" := Str("t")]
    ensures DiffEntities(other, e, {"owner", "title"}, idOf).Ok? ==>
              "owner" !in DiffEntities(other, e, {"owner", "title"}, idOf).value
  {
    var r := PrepareEntity(e, {"owner", "title"}, idOf);
    assert r.Keys == {"title"};
  }
}

=== FILE: values.dfy ===
/** JavaScript values as the utilities see them, with the two observations the
    differ makes of a value: its own enumerable keys (`Object.keys(v)`) and
    property lookup (`v[k]`), and the type probes of lib/Utils.ts:12-22. */
module Values {
  import opened Wrappers

  /** A JavaScript value. Numbers are integers; `Obj` is a plain object with
      its own enumerable properties (an explicitly `undefined` property is a
      key mapped to `Undef`, distinct from a missing key); `Oid` is a bson
      `ObjectID` built from the given constructor argument. */
  datatype Value =
    | Undef
    | Null
    | Bool(b: bool)
    | Num(n: int)
    | Str(s: string)
    | Arr(elems: seq<Value>)
    | Obj(props: map<string, Value>)
    | Oid(src: Value)

  /** `typeof v === 'object'`: true for null, arrays, plain objects and ObjectIDs. */
  predicate IsObject(v: Value) {
    v.Null? || v.Arr? || v.Obj? || v.Oid?
  }

  /** `Object.prototype.toString.call(v) === '[object Array]'`. */
  predicate IsArray(v: Value) {
    v.Arr?
  }

  /** `typeof v === 'string'`. */
  predicate IsString(v: Value) {
    v.Str?
  }

  /** Values on which any property access throws a TypeError. */
  predicate Nullish(v: Value) {
    v.Undef? || v.Null?
  }

  /** No `null` anywhere in `v`, looking through plain objects and arrays. */
  predicate NullFree(v: Value) {
    match v
    case Null => false
    case Obj(m) => forall k | k in m :: NullFree(m[k])
    case Arr(s) => forall i | 0 <= i < |s| :: NullFree(s[i])
    case _ => true
  }

  /** JavaScript truthiness (`if (v)`). */
  predicate Truthy(v: Value) {
    match v
    case Undef => false
    case Null => false
    case Bool(b) => b
    case Num(n) => n != 0
    case Str(s) => |s| > 0
    case _ => true
  }

  // ---------------------------------------------------------------------------
  // Canonical array-index keys: the decimal strings "0", "1", ..., "10", ...

  predicate IsDigit(c: char) {
    '0' <= c <= '9'
  }

  function DigitChar(d: nat): (c: char)
    requires d < 10
    ensures IsDigit(c)
  {
    (48 + d) as char
  }

  function DigitValue(c: char): (d: nat)
    requires IsDigit(c)
    ensures d < 10
  {
    c as int - 48
  }

  predicate AllDigits(k: string) {
    forall j | 0 <= j < |k| :: IsDigit(k[j])
  }

  /** The property key under which an array or a string exposes index `i`. */
  function IndexKey(i: nat): (k: string)
    ensures |k| > 0 && AllDigits(k)
    decreases i
  {
    if i < 10 then [DigitChar(i)] else IndexKey(i / 10) + [DigitChar(i % 10)]
  }

  /** A canonical index key: non-empty decimal digits without a leading zero. */
  predicate IsIndexKey(k: string) {
    |k| > 0 && AllDigits(k) && (|k| == 1 || k[0] != '0')
  }

  function ParseDigits(k: string): nat
    requires AllDigits(k)
    decreases |k|
  {
    if |k| == 0 then 0 else ParseDigits(k[..|k| - 1]) * 10 + DigitValue(k[|k| - 1])
  }

  /** The array index a property key denotes, if any. */
  function ParseIndex(k: string): Option<nat> {
    if IsIndexKey(k) then Some(ParseDigits(k)) else None
  }

  lemma {:induction false} IndexKeyLeadingDigit(i: nat)
    ensures IndexKey(i)[0] == '0' <==> i == 0
    decreases i
  {
    if i >= 10 {
      IndexKeyLeadingDigit(i / 10);
    }
  }

  lemma {:induction false} ParseIndexKeyDigits(i: nat)
    ensures ParseDigits(IndexKey(i)) == i
    decreases i
  {
    if i >= 10 {
      var k := IndexKey(i);
      assert k[..|k| - 1] == IndexKey(i / 10);
      ParseIndexKeyDigits(i / 10);
    }
  }

  /** Printing an index and parsing it back yields the index. */
  lemma IndexKeyRoundTrip(i: nat)
    ensures ParseIndex(IndexKey(i)) == Some(i)
  {
    IndexKeyLeadingDigit(i);
    ParseIndexKeyDigits(i);
  }

  lemma {:induction false} ParseDigitsPositive(k: string)
    requires AllDigits(k) && |k| > 0 && k[0] != '0'
    ensures ParseDigits(k) > 0
    decreases |k|
  {
    if |k| > 1 {
      ParseDigitsPositive(k[..|k| - 1]);
    }
  }

  /** Parsing a canonical index key and printing the index yields the key. */
  lemma {:induction false} ParseIndexRoundTrip(k: string)
    requires ParseIndex(k).Some?
    ensures IndexKey(ParseIndex(k).value) == k
    decreases |k|
  {
    if |k| > 1 {
      var init := k[..|k| - 1];
      ParseDigitsPositive(init);
      ParseIndexRoundTrip(init);
      var n := ParseDigits(k);
      assert n / 10 == ParseDigits(init) && n % 10 == DigitValue(k[|k| - 1]);
      assert k == init + [k[|k| - 1]];
    }
  }

  /** The own index keys of an array or string of length `n`. */
  function IndexKeys(n: nat): set<string> {
    set i | 0 <= i < n :: IndexKey(i)
  }

  /** The index keys of a length-`n` array are exactly the canonical keys
      that denote an index below `n`. */
  lemma IndexKeysExactly(k: string, n: nat)
    ensures k in IndexKeys(n) <==> ParseIndex(k).Some? && ParseIndex(k).value < n
  {
    if k in IndexKeys(n) {
      var i :| 0 <= i < n && IndexKey(i) == k;
      IndexKeyRoundTrip(i);
    }
    if ParseIndex(k).Some? && ParseIndex(k).value < n {
      ParseIndexRoundTrip(k);
    }
  }

  // ---------------------------------------------------------------------------
  // Object.keys and property lookup

  /** `Object.keys(v)` as a set. Arrays and strings list their indices;
      numbers and booleans have none; an ObjectID is treated as having none. */
  function OwnKeys(v: Value): (r: Result<set<string>>)
    ensures r.TypeError? <==> Nullish(v)
    ensures v.Obj? ==> r == Ok(v.props.Keys)
    ensures v.Arr? ==> r == Ok(IndexKeys(|v.elems|))
  {
    match v
    case Undef => TypeError
    case Null => TypeError
    case Obj(m) => Ok(m.Keys)
    case Arr(s) => Ok(IndexKeys(|s|))
    case Str(s) => Ok(IndexKeys(|s|))
    case _ => Ok({})
  }

  /** `o[k]` on a plain object with own properties `m`: `undefined` when absent. */
  function Prop(m: map<string, Value>, k: string): Value {
    if k in m then m[k] else Undef
  }

  /** `v[k]`: own properties of objects, elements and `length` of arrays and
      strings, `undefined` for anything absent; throws on undefined/null. */
  function Get(v: Value, k: string): (r: Result<Value>)
    ensures r.TypeError? <==> Nullish(v)
  {
    match v
    case Undef => TypeError
    case Null => TypeError
    case Obj(m) => Ok(Prop(m, k))
    case Arr(s) =>
      var i := ParseIndex(k);
      Ok(if i.Some? && i.value < |s| then s[i.value]
         else if k == "length" then Num(|s|)
         else Undef)
    case Str(s) =>
      var i := ParseIndex(k);
      Ok(if i.Some? && i.value < |s| then Str([s[i.value]])
         else if k == "length" then Num(|s|)
         else Undef)
    case _ => Ok(Undef)
  }

  /** Reading any key of a defined null-free value succeeds, and what it
      reads is null-free too. */
  lemma GetNullFree(v: Value, k: string)
    requires !Nullish(v) && NullFree(v)
    ensures Get(v, k).Ok? && NullFree(Get(v, k).value)
  {
  }

  /** The value under an own key of `v`. Only objects and arrays hold
      object-typed values under their own keys, and those are immediate
      children of `v` (which is what makes recursion over them terminate). */
  lemma OwnKeyChild(v: Value, k: string)
    requires OwnKeys(v).Ok? && k in OwnKeys(v).value
    ensures Get(v, k).Ok?
    ensures v.Obj? ==> Get(v, k).value == v.props[k]
    ensures v.Arr? ==> ParseIndex(k).Some? && ParseIndex(k).value < |v.elems|
                       && Get(v, k).value == v.elems[ParseIndex(k).value]
    ensures IsObject(Get(v, k).value) ==> v.Obj? || v.Arr?
  {
    if v.Arr? || v.Str? {
      IndexKeysExactly(k, if v.Arr? then |v.elems| else |v.s|);
    }
  }

  /** Reading index key `i` of an array yields its `i`-th element. */
  lemma GetArrayElement(s: seq<Value>, i: nat)
    requires i < |s|
    ensures IndexKey(i) in OwnKeys(Arr(s)).value
    ensures Get(Arr(s), IndexKey(i)) == Ok(s[i])
  {
    IndexKeyRoundTrip(i);
    IndexKeysExactly(IndexKey(i), |s|);
  }
}

=== FILE: wrappers.dfy ===
/** Failure-compatible wrappers shared by the whole model. */
module Wrappers {

  /** An optional value. */
  datatype Option<+T> = None | Some(value: T)

  /** The outcome of a JavaScript evaluation that either yields a value or
      throws a `TypeError` (reading a property of `undefined`/`null`, or
      `Object.keys` of `undefined`/`null`). Usable with `:-`. */
  datatype Result<+T> = Ok(value: T) | TypeError {

    predicate IsFailure() {
      TypeError?
    }

    function PropagateFailure<U>(): Result<U>
      requires TypeError?
    {
      TypeError
    }

    function Extract(): T
      requires Ok?
    {
      value
    }
  }
}
